=== FILE: README.md ===
# Lorem-ipsum objects: the factory registry and bind-time validation

This project models the core of a Java library that creates filler
("lorem ipsum") instances of arbitrary classes for use as test fixtures. It
covers three parts of that library:

- `ClassBindings` is the registry from a class to the factory that creates
  its instances. `bind` stores a factory only when the factory's own
  `isValidForType` check accepts the class, and throws an
  `IllegalArgumentException` otherwise. `find` is a plain lookup that may
  return null. The constructor makes a fixed sequence of default bindings.
- `LoremIpsumObjectFactory` is the abstract factory. By default its validity
  check accepts every class. Its creator returns a nullable object and
  records expected failures in an exception list instead of throwing them.
  Its one-argument entry point starts a new creation chain with an empty
  known-instances map and an empty exception list.
- `MethodBasedFactory` creates objects by calling a static method. Its
  validity check accepts a class only when the method is static and returns
  exactly that class; in every other case the check throws. Its creator
  synthesises one argument per declared parameter and invokes the method. If
  the invocation fails, it records exactly one exception and returns null.

The model is functional:

- The registry is an immutable `map<ClassId, Factory>`.
- `Bind` returns `Result<ClassBindings, Exception>`. A thrown exception
  becomes a `Failure` that carries no registry, so the caller keeps the
  registry it had.
- A creator threads a `Chain` value (the known-instances map and the
  exception list) and returns the nullable object together with the chain
  afterwards.

Files:

- `wrappers.dfy` defines `Option` and `Result`.
- `lang.dfy` holds stand-ins for the Java runtime: `ClassId`, `MethodDesc`,
  `Value`, `Exception`, `Verdict` (the outcome of `isValidForType`) and
  `IsProperSubtype`, Java's subtype relation among the library classes.
- `chain.dfy` defines the creation chain and the append-only relation on its
  exception list.
- `method_factory.dfy`, `factory.dfy` and `class_bindings.dfy` follow the
  three Java classes.

Two behaviours of the code that a reader might not expect, both modelled as
written:

- `bind` wraps only an `IllegalArgumentException`: the one the check raises
  itself, and the one `bind` raises for a `false` answer. Any other exception
  from the check escapes unwrapped (`ClassBindings.java:98-107`). `Rejection`
  models exactly that.
- The one-argument entry point creates the exception list and then drops it
  (`LoremIpsumObjectFactory.java:35-36`). The model returns the final chain
  as well, so that the contract can state what the list started as and what
  it ended with.

## Model

| member | source | states |
|---|---|---|
| `ClassBindings.Find` | src/main/java/org/bbottema/loremipsumobjects/ClassBindings.java:111-119 | `find` is non-null exactly for a bound class, and then it is the stored factory; it is a pure function, so it cannot change the registry |
| `ClassBindings.Rejection` | src/main/java/org/bbottema/loremipsumobjects/ClassBindings.java:97-108 | a `false` answer becomes an `IllegalArgumentException` for the class, wrapping the "not valid" exception; an `IllegalArgumentException` from the check is wrapped as the cause; any other exception from the check escapes as it is |
| `ClassBindings.Bind` | src/main/java/org/bbottema/loremipsumobjects/ClassBindings.java:88-109 | `bind` succeeds exactly when the factory's check answers true; afterwards `find` returns that factory for the class, every other class keeps its binding, and the key set grows only by that class; on failure it throws the rejection and changes nothing |
| `ClassBindings.AfterBind` | src/main/java/org/bbottema/loremipsumobjects/ClassBindings.java:97-108 | once `bind` has returned or thrown: if the check did not answer true the registry is exactly as before; otherwise the class finds the new factory and every other class finds what it found before |
| `ClassBindings.BindAllSucceedsIffAllValid` | src/main/java/org/bbottema/loremipsumobjects/ClassBindings.java:59-86 | a sequence of binds, as the constructor runs them, completes exactly when every factory in it is valid for its class |
| `ClassBindings.BindAllStopsAtFirstRejection` | src/main/java/org/bbottema/loremipsumobjects/ClassBindings.java:97-108 | a sequence of binds throws the rejection of its first invalid step; later steps do not run |
| `ClassBindings.BindAllLastWriteWins` | src/main/java/org/bbottema/loremipsumobjects/ClassBindings.java:100 | last write wins: after valid binds, `find` returns the factory of the last bind of the class, or what it returned before when the class was never bound in the sequence |
| `ClassBindings.BindAllBindsExactly` | src/main/java/org/bbottema/loremipsumobjects/ClassBindings.java:100 | after valid binds, the bound classes are exactly those bound before plus those the sequence names |
| `ClassBindings.InvalidMethodFactoryRejectedAtBind` | src/main/java/org/bbottema/loremipsumobjects/ClassBindings.java:97-108 | a method factory whose method is not static or returns another class is refused at bind time, with the method factory's own exception as the cause |
| `ClassBindings.MethodFactoryBindsIffStaticAndExact` | src/main/java/org/bbottema/loremipsumobjects/typefactories/MethodBasedFactory.java:27-32 | a method factory binds to a class if and only if its method is static and returns exactly that class |
| `ClassBindings.SubclassReturnTypeDoesNotQualify` | src/main/java/org/bbottema/loremipsumobjects/typefactories/MethodBasedFactory.java:28 | a method factory whose return type is a proper subtype of the class (an `Integer` method for `Number`, an `ArrayList` method for `List`) is refused at bind time with the "has to be static" exception as the cause: the return type must be equal, not a subclass |
| `ClassBindings.DefaultCheckBindsAnyClass` | src/main/java/org/bbottema/loremipsumobjects/typefactories/LoremIpsumObjectFactory.java:20-26 | a factory that keeps the default check can be bound to any class, and `find` then returns it |
| `ClassBindings.PrimitiveTypeDefaultsLastBound` | src/main/java/org/bbottema/loremipsumobjects/ClassBindings.java:60-67 | the first eight default binds bind each primitive type once, to the random factory of its own kind, and bind nothing else |
| `ClassBindings.WrapperDefaultsLastBound` | src/main/java/org/bbottema/loremipsumobjects/ClassBindings.java:68-75 | the next eight default binds bind each wrapper class once, to the random factory of the primitive kind it wraps, and bind nothing else |
| `ClassBindings.ReferenceDefaultsLastBound` | src/main/java/org/bbottema/loremipsumobjects/ClassBindings.java:77-85 | the binds after `Number` bind exactly their nine classes, and the last of them for `Boolean.class` is the random boolean factory |
| `ClassBindings.PrimitiveLayersFind` | src/main/java/org/bbottema/loremipsumobjects/ClassBindings.java:60-75 | after the primitive and wrapper binds, each primitive type and wrapper class finds the random factory of its kind, and every other class keeps what it had |
| `ClassBindings.NumberFactoryFindsPrimitives` | src/main/java/org/bbottema/loremipsumobjects/ClassBindings.java:76 | built after the primitive binds, the `Number` factory holds six non-null primitive factories in source order; built on an empty registry it would hold six nulls, so the order of the binds matters |
| `ClassBindings.ReferenceLayerFind` | src/main/java/org/bbottema/loremipsumobjects/ClassBindings.java:77-85 | the binds after `Number` add their nine classes, leave `Boolean.class` with the random boolean factory, and leave `Number` untouched |
| `ClassBindings.BindDefaultsFind` | src/main/java/org/bbottema/loremipsumobjects/ClassBindings.java:59-86 | for one class: the constructor's binds succeed; `find` is non-null exactly for the classes bound before and the default classes; `Boolean.class` ends with the second factory bound to it; `Number` holds the six primitive factories |
| `ClassBindings.BindDefaultsBindsDefaults` | src/main/java/org/bbottema/loremipsumobjects/ClassBindings.java:59-86 | the same facts for every class at once |
| `ClassBindings.NewBindsDefaults` | src/main/java/org/bbottema/loremipsumobjects/ClassBindings.java:55-86 | the constructor, modelled as `ClassBindings.New` (the body `BindDefaults` run on an empty registry), never throws; afterwards `find` is non-null exactly for the 25 default classes and null for every other class; `Boolean.class` holds the factory bound on line 80, not the one bound on line 71; the `Number` factory's six primitive factories are all non-null |
| `LoremIpsumObjectFactory.IsValidForType` | src/main/java/org/bbottema/loremipsumobjects/typefactories/LoremIpsumObjectFactory.java:20-26 | the default check answers true for every class; a method factory answers true exactly for a static method returning the class, and never answers false; a user factory that overrides the check (`Custom`) accepts a fixed set of classes and answers one fixed verdict otherwise |
| `LoremIpsumObjectFactory.CreateInChain` | src/main/java/org/bbottema/loremipsumobjects/typefactories/LoremIpsumObjectFactory.java:39-59 | the creator returns a nullable object; the exception list only grows, so every earlier exception stays in place as a prefix; a method factory creates through its own creator |
| `LoremIpsumObjectFactory.CreateLoremIpsumObject` | src/main/java/org/bbottema/loremipsumobjects/typefactories/LoremIpsumObjectFactory.java:28-37 | the entry point runs the creator with null generic metadata, an empty known-instances map and an empty exception list: for a method factory the outcome is exactly the method creator's on that empty chain. For a parameterless method, a successful call returns its result and records nothing; a failed call returns null and records exactly one exception. For any other factory, the object, the known-instances map and the exception list are exactly what that factory produced and added |
| `LoremIpsumObjectFactory.EntryStartsFromEmptyChain` | src/main/java/org/bbottema/loremipsumobjects/typefactories/LoremIpsumObjectFactory.java:34-37 | when the entry point runs a method factory with parameters, the method is invoked on arguments whose first was synthesised with null generic metadata, an empty known-instances map and an empty exception list; the entry point returns that invocation's result, or null when it failed |
| `MethodBasedFactory.IsValidForType` | src/main/java/org/bbottema/loremipsumobjects/typefactories/MethodBasedFactory.java:26-33 | valid if and only if the method is static and its return type equals the class exactly; never answers false; in every other case it throws the "has to be static" exception |
| `MethodBasedFactory.SynthesizeArguments` | src/main/java/org/bbottema/loremipsumobjects/typefactories/MethodBasedFactory.java:45-51 | one argument per declared parameter; the exception list only grows while they are synthesised; how each parameter's known instances and exceptions are passed on to the next is stated by `MethodBasedFactory.ChainAfterParameter` |
| `MethodBasedFactory.ArgumentIsSynthesizedForItsParameter` | src/main/java/org/bbottema/loremipsumobjects/typefactories/MethodBasedFactory.java:46-51 | argument `i` is the object a class-based factory synthesised for parameter type `i`. That factory received the outer generic metadata and context, and the chain as the earlier parameters left it, which `MethodBasedFactory.ChainAfterParameter` spells out step by step |
| `MethodBasedFactory.ChainAfterParameter` | src/main/java/org/bbottema/loremipsumobjects/typefactories/MethodBasedFactory.java:48-51 | all parameters share one known-instances map and one exception list: parameter 0 starts from the caller's chain, the chain after parameter `i` is the chain before it with what that parameter's class-based factory produced and recorded absorbed, and the invocation sees the chain after the last parameter |
| `MethodBasedFactory.CreateLoremIpsumObject` | src/main/java/org/bbottema/loremipsumobjects/typefactories/MethodBasedFactory.java:35-63 | the method is invoked with one synthesised argument per parameter. On success the result is the invocation's value and nothing is recorded beyond argument synthesis. On failure (an exception or the time limit) the result is null and exactly one `IllegalArgumentException` is appended, naming the method and its return type and carrying the failure as its cause; the invocation failure is recorded, not thrown. Earlier exceptions stay as a prefix |

## Left out

- Java reflection (`Method.invoke`, `Modifier.isStatic`, `getParameterTypes`): a method is the record `MethodDesc`, and invoking it is a parameter (`invoke`) that returns the method's value or the exception it failed with.
- `TimeLimitedCodeBlock` and the wall-clock deadline: a time-out is the `Timeout` exception that `invoke` may fail with, and is handled like any other failure. `invoke` receives the context, where Java reads the limit (`MethodBasedFactory.java:53`), so the outcome may depend on the configured limit. Threads and clocks are not modelled.
- The random leaf factories (`RandomPrimitiveFactory`, `RandomStringFactory`, `RandomUuidFactory`, `RandomLocalDateFactory`, `RandomBooleanFactory`, `RandomBigDecimalFactory`, `RandomOptionalFactory`, `RandomFactoryFactory`) are not part of this model. They are opaque `Factory` values that keep the default check; what they create is a parameter (`produce`).
- `ClassBasedFactory`, `ClassUsageInfo`, `ConstructorBasedFactory` and the recursion and cycle handling behind them are not part of this model. What a factory of this kind creates is part of the `produce` parameter; a method factory synthesises each argument by calling `produce` on `ClassBased` of the parameter's class (`ParameterSynthesis`), so a parameter and a registry binding of the same class are created by the same collaborator. It returns an object, the known-instances map as it left it, and the exceptions it added, so it can only append to the list. `ClassBasedFactory` keeps the default check.
- `Custom` stands in for a user-written factory that overrides `isValidForType`. It accepts a fixed set of classes and answers one fixed verdict for every other class.
- The context argument differs between versions of the sources. The abstract creator takes `ClassBindings`, while `MethodBasedFactory` and the leaf factories take a `LoremIpsumConfig`. The model passes one opaque value of a type parameter `Ctx`.
- Null arguments: the model has no null `ClassId`, `Factory`, known-instances map or exception list.
  - In Java a null list makes `MethodBasedFactory` throw a `NullPointerException` at line 60 when it records a failure. A null map is only handed on to `ClassBasedFactory` (line 50), and `MethodBasedFactory` itself never dereferences it.
  - `bind(c, null)` throws a `NullPointerException` at `ClassBindings.java:99`. It is not an `IllegalArgumentException`, so `bind` does not wrap it.
  - `bind(null, f)` with a factory that keeps the default check stores `f` under the null key, which `HashMap` permits, and `find(null)` then returns it.
- Collaborators that throw: `produce` (argument synthesis included) is total and reports only the exceptions it added, so the model assumes it never throws and never removes a recorded exception. In Java, argument synthesis (`MethodBasedFactory.java:48-51`) is outside the `try` at line 52. An exception escaping a `ClassBasedFactory` there would escape `_createLoremIpsumObject` unrecorded. Only exceptions from the invocation itself are caught (line 59).
- Exception messages formatted with `String.format`, including the factory's `toString`: a rejection records the class it was for, and an invocation failure records the method name and return type.
- `locateClass("Optional", "java.util", null)` on line 85 is taken to find `java.util.Optional`.
- The compile-time generic bound `Class<T>` / `LoremIpsumObjectFactory<? extends T>` on `bind` is not modelled; classes are compared only for equality.
- `NestedMapClass` (fixture data) and `RandomLocalDateFactoryTest`, which swaps a global generator instance.

=== FILE: chain.dfy ===
/** The mutable state a creation chain threads through every factory it
    calls: the known-instances map and the list of recorded exceptions. The
    model passes it as a value and returns the updated value. */
module CreationChain {
  import opened Wrappers
  import opened Lang

  datatype Chain = Chain(knownInstances: map<string, ClassUsageInfo>, exceptions: seq<Exception>)

  /** A fresh chain: no known instances and no exceptions. */
  function NewChain(): (c: Chain)
    ensures |c.knownInstances| == 0 && |c.exceptions| == 0
  {
    Chain(map[], [])
  }

  /** What a factory that this model does not open up reports back: the
      (nullable) object, the known-instances map as it left it, and the
      exceptions it added. Such factories only ever add to the list. */
  datatype Produced = Produced(value: Option<Value>, knownInstances: map<string, ClassUsageInfo>, added: seq<Exception>)

  /** The outcome of a creator: the nullable object and the chain afterwards. */
  datatype Created = Created(value: Option<Value>, chain: Chain)

  /** `a` is a prefix of `b`: nothing in `a` was removed or changed. */
  predicate IsPrefix<T(==)>(a: seq<T>, b: seq<T>) {
    |a| <= |b| && a == b[..|a|]
  }

  /** The chain after a collaborating factory reported `p`. */
  function Absorb(c: Chain, p: Produced): (r: Chain)
    ensures IsPrefix(c.exceptions, r.exceptions)
    ensures r.exceptions[|c.exceptions|..] == p.added
    ensures r.knownInstances == p.knownInstances
  {
    Chain(p.knownInstances, c.exceptions + p.added)
  }

  /** The chain after one exception was recorded. */
  function Record(c: Chain, e: Exception): (r: Chain)
    ensures IsPrefix(c.exceptions, r.exceptions)
    ensures |r.exceptions| == |c.exceptions| + 1 && r.exceptions[|c.exceptions|] == e
    ensures r.knownInstances == c.knownInstances
  {
    Chain(c.knownInstances, c.exceptions + [e])
  }

  /** Growing twice is growing: a prefix of a prefix is a prefix. */
  lemma PrefixTransitive<T>(a: seq<T>, b: seq<T>, c: seq<T>)
    requires IsPrefix(a, b) && IsPrefix(b, c)
    ensures IsPrefix(a, c)
  {
  }
}

=== FILE: class_bindings.dfy ===
/** `ClassBindings`: the registry from a class to the factory that creates
    objects for it. A binding is inserted only when the factory's own
    validity check accepts the class; a rejected binding throws an
    `IllegalArgumentException` and leaves the registry as it was. */
module ClassBindings {
  import opened Wrappers
  import opened Lang
  import opened LoremIpsumObjectFactory

  datatype ClassBindings = ClassBindings(bindings: map<ClassId, Factory>)

  /** One call of `bind`: a class and the factory to bind to it. */
  type Step = (ClassId, Factory)

  /** The registry before any binding. */
  function EmptyBindings(): (cb: ClassBindings)
    ensures |cb.bindings| == 0
  {
    ClassBindings(map[])
  }

  /** `find`: the factory bound to `clazz`, or null. */
  function Find(cb: ClassBindings, clazz: ClassId): (r: Option<Factory>)
    ensures r.Some? <==> clazz in cb.bindings
    ensures r.Some? ==> r.value == cb.bindings[clazz]
  {
    if clazz in cb.bindings then Some(cb.bindings[clazz]) else None
  }

  /** The exception `bind` throws when the check of `f` for `clazz` did not
      answer true: a false answer becomes a wrapped "not valid" exception, an
      `IllegalArgumentException` from the check is wrapped as the cause, and
      any other exception from the check escapes as it is. */
  function Rejection(clazz: ClassId, f: Factory): (e: Exception)
    requires IsValidForType(f, clazz) != Valid
    ensures var v := IsValidForType(f, clazz);
            && (v == Invalid ==>
                  e == IllegalArgument(FactoryNotValidForClass(clazz), Some(IllegalArgument(FactoryNotValid, None))))
            && (v.Throws? && v.thrown.IllegalArgument? ==> e == IllegalArgument(FactoryNotValidForClass(clazz), Some(v.thrown)))
            && (v.Throws? && !v.thrown.IllegalArgument? ==> e == v.thrown)
  {
    match IsValidForType(f, clazz)
    case Invalid =>
      IllegalArgument(FactoryNotValidForClass(clazz), Some(IllegalArgument(FactoryNotValid, None)))
    case Throws(thrown) =>
      if thrown.IllegalArgument? then IllegalArgument(FactoryNotValidForClass(clazz), Some(thrown)) else thrown
  }

  /** `bind`: binds `f` to `clazz` when `f` is valid for it, replacing any
      earlier binding of `clazz`; otherwise throws and binds nothing. */
  function Bind(cb: ClassBindings, clazz: ClassId, f: Factory): (r: Result<ClassBindings, Exception>)
    ensures r.Success? <==> IsValidForType(f, clazz) == Valid
    ensures r.Success? ==> Find(r.value, clazz) == Some(f)
    ensures r.Success? ==> forall other :: other != clazz ==> Find(r.value, other) == Find(cb, other)
    ensures r.Success? ==> r.value.bindings.Keys == cb.bindings.Keys + {clazz}
    ensures r.Failure? ==> r.error == Rejection(clazz, f)
  {
    if IsValidForType(f, clazz) == Valid then Success(ClassBindings(cb.bindings[clazz := f]))
    else Failure(Rejection(clazz, f))
  }

  /** The registry as its owner sees it once `bind` has returned or thrown:
      a rejected binding leaves it exactly as it was. */
  function AfterBind(cb: ClassBindings, clazz: ClassId, f: Factory): (after: ClassBindings)
    ensures IsValidForType(f, clazz) != Valid ==> after == cb
    ensures IsValidForType(f, clazz) == Valid ==>
              Find(after, clazz) == Some(f) && forall other :: other != clazz ==> Find(after, other) == Find(cb, other)
  {
    match Bind(cb, clazz, f)
    case Success(next) => next
    case Failure(_) => cb
  }

  /** Every step's factory is valid for its class. */
  predicate AllValid(steps: seq<Step>) {
    forall i :: 0 <= i < |steps| ==> IsValidForType(steps[i].1, steps[i].0) == Valid
  }

  /** The steps after a valid first step are still all valid. */
  lemma AllValidTail(steps: seq<Step>)
    requires |steps| > 0 && AllValid(steps)
    ensures AllValid(steps[1..])
  {
  }

  /** A sequence of `bind` calls in order, as a constructor body runs them:
      the first one that throws ends the sequence with its exception. */
  function BindAll(cb: ClassBindings, steps: seq<Step>): Result<ClassBindings, Exception>
    decreases |steps|
  {
    if |steps| == 0 then Success(cb)
    else
      var next :- Bind(cb, steps[0].0, steps[0].1);
      BindAll(next, steps[1..])
  }

  /** The factory of the last step that binds `clazz`, if any. */
  function LastBound(steps: seq<Step>, clazz: ClassId): Option<Factory>
    decreases |steps|
  {
    if |steps| == 0 then None
    else if steps[|steps| - 1].0 == clazz then Some(steps[|steps| - 1].1)
    else LastBound(steps[..|steps| - 1], clazz)
  }

  /** The factory `find` returns after a later binding layer `top` is placed
      over what was found before. */
  function Over(top: Option<Factory>, below: Option<Factory>): Option<Factory> {
    if top.Some? then top else below
  }

  /** The classes some step binds. */
  function BoundClasses(steps: seq<Step>): set<ClassId> {
    set i | 0 <= i < |steps| :: steps[i].0
  }

  /** A sequence of binds completes exactly when every factory in it is
      valid for its class. */
  lemma {:induction false} BindAllSucceedsIffAllValid(cb: ClassBindings, steps: seq<Step>)
    ensures BindAll(cb, steps).Success? <==> AllValid(steps)
    decreases |steps|
  {
    if |steps| > 0 {
      var r := Bind(cb, steps[0].0, steps[0].1);
      if r.Success? {
        BindAllSucceedsIffAllValid(r.value, steps[1..]);
        if AllValid(steps[1..]) {
          forall i | 0 <= i < |steps|
            ensures IsValidForType(steps[i].1, steps[i].0) == Valid
          {
            if i > 0 { assert steps[i] == steps[1..][i - 1]; }
          }
        }
        if AllValid(steps) {
          AllValidTail(steps);
        }
      }
    }
  }

  /** A sequence of binds throws the rejection of its first invalid step. */
  lemma {:induction false} BindAllStopsAtFirstRejection(cb: ClassBindings, steps: seq<Step>, k: nat)
    requires k < |steps|
    requires AllValid(steps[..k])
    requires IsValidForType(steps[k].1, steps[k].0) != Valid
    ensures BindAll(cb, steps) == Failure(Rejection(steps[k].0, steps[k].1))
    decreases k
  {
    if k > 0 {
      assert steps[..k][0] == steps[0];
      var next := Bind(cb, steps[0].0, steps[0].1);
      AllValidTail(steps[..k]);
      assert steps[..k][1..] == steps[1..][..k - 1];
      BindAllStopsAtFirstRejection(next.value, steps[1..], k - 1);
    }
  }

  /** `LastBound` read from the front: the first step counts only when no
      later step binds the same class. */
  lemma {:induction false} LastBoundFromFront(steps: seq<Step>, clazz: ClassId)
    requires |steps| > 0
    ensures LastBound(steps, clazz)
         == Over(LastBound(steps[1..], clazz), if steps[0].0 == clazz then Some(steps[0].1) else None)
    decreases |steps|
  {
    if |steps| > 1 && steps[|steps| - 1].0 != clazz {
      var init := steps[..|steps| - 1];
      LastBoundFromFront(init, clazz);
      assert init[1..] == steps[1..][..|steps[1..]| - 1];
      assert init[0] == steps[0];
    }
  }

  /** Last write wins: after a sequence of valid binds, `find` returns the
      factory of the last step binding the class, or what it returned before
      when no step binds it. */
  lemma {:induction false} BindAllLastWriteWins(cb: ClassBindings, steps: seq<Step>, clazz: ClassId)
    requires AllValid(steps)
    ensures BindAll(cb, steps).Success?
    ensures Find(BindAll(cb, steps).value, clazz) == Over(LastBound(steps, clazz), Find(cb, clazz))
    decreases |steps|
  {
    BindAllSucceedsIffAllValid(cb, steps);
    if |steps| > 0 {
      var next := Bind(cb, steps[0].0, steps[0].1).value;
      AllValidTail(steps);
      BindAllLastWriteWins(next, steps[1..], clazz);
      LastBoundFromFront(steps, clazz);
    }
  }

  /** After a sequence of valid binds, exactly the classes bound before and
      the classes the steps name have a binding. */
  lemma {:induction false} BindAllBindsExactly(cb: ClassBindings, steps: seq<Step>)
    requires AllValid(steps)
    ensures BindAll(cb, steps).Success?
    ensures BindAll(cb, steps).value.bindings.Keys == cb.bindings.Keys + BoundClasses(steps)
    decreases |steps|
  {
    BindAllSucceedsIffAllValid(cb, steps);
    if |steps| > 0 {
      var next := Bind(cb, steps[0].0, steps[0].1).value;
      AllValidTail(steps);
      BindAllBindsExactly(next, steps[1..]);
      assert BoundClasses(steps) == {steps[0].0} + BoundClasses(steps[1..]) by {
        forall c | c in BoundClasses(steps) ensures c in {steps[0].0} + BoundClasses(steps[1..]) {
          var i :| 0 <= i < |steps| && steps[i].0 == c;
          if i > 0 { assert steps[1..][i - 1] == steps[i]; }
        }
        forall c | c in BoundClasses(steps[1..]) ensures c in BoundClasses(steps) {
          var i :| 0 <= i < |steps[1..]| && steps[1..][i].0 == c;
          assert steps[i + 1] == steps[1..][i];
        }
      }
    }
  }

  /** An invalid method factory is refused when it is bound, with the
      method factory's own exception as the cause, so the mistake surfaces at
      bind time and not at creation time. */
  lemma InvalidMethodFactoryRejectedAtBind(cb: ClassBindings, clazz: ClassId, m: MethodDesc)
    requires !m.isStatic || m.returnType != clazz
    ensures Bind(cb, clazz, MethodBased(m))
         == Failure(IllegalArgument(FactoryNotValidForClass(clazz), Some(IllegalArgument(MethodMustBeStaticAndReturnClass, None))))
  {
  }

  /** A method factory binds to a class exactly when its method is static
      and returns that very class. */
  lemma MethodFactoryBindsIffStaticAndExact(cb: ClassBindings, clazz: ClassId, m: MethodDesc)
    ensures Bind(cb, clazz, MethodBased(m)).Success? <==> m.isStatic && m.returnType == clazz
  {
  }

  /** Returning a subtype is not enough: a static method whose return type
      is a proper subtype of the class cannot be bound to it (for example, a
      method returning `Integer` cannot be bound to `Number`, although every
      `Integer` is a `Number`). */
  lemma SubclassReturnTypeDoesNotQualify(cb: ClassBindings, clazz: ClassId, m: MethodDesc)
    requires IsProperSubtype(m.returnType, clazz)
    ensures Bind(cb, clazz, MethodBased(m))
         == Failure(IllegalArgument(FactoryNotValidForClass(clazz), Some(IllegalArgument(MethodMustBeStaticAndReturnClass, None))))
  {
    InvalidMethodFactoryRejectedAtBind(cb, clazz, m);
  }

  /** A factory that keeps the default check can be bound to any class. */
  lemma DefaultCheckBindsAnyClass(cb: ClassBindings, clazz: ClassId, f: Factory)
    requires KeepsDefaultCheck(f)
    ensures Bind(cb, clazz, f).Success?
    ensures Find(Bind(cb, clazz, f).value, clazz) == Some(f)
  {
  }

  // The default bindings the constructor makes, in order.

  /** The eight primitive types, each bound to the random factory of its kind. */
  const PrimitiveTypeDefaults: seq<Step> := [
    (Primitive(Long), RandomPrimitive(Long)),
    (Primitive(Int), RandomPrimitive(Int)),
    (Primitive(Float), RandomPrimitive(Float)),
    (Primitive(Boolean), RandomPrimitive(Boolean)),
    (Primitive(Char), RandomPrimitive(Char)),
    (Primitive(Byte), RandomPrimitive(Byte)),
    (Primitive(Short), RandomPrimitive(Short)),
    (Primitive(Double), RandomPrimitive(Double))
  ]

  /** The eight wrapper classes, each bound to the random factory of the
      primitive kind it wraps. */
  const WrapperDefaults: seq<Step> := [
    (Boxed(Long), RandomPrimitive(Long)),
    (Boxed(Int), RandomPrimitive(Int)),
    (Boxed(Float), RandomPrimitive(Float)),
    (Boxed(Boolean), RandomPrimitive(Boolean)),
    (Boxed(Char), RandomPrimitive(Char)),
    (Boxed(Byte), RandomPrimitive(Byte)),
    (Boxed(Short), RandomPrimitive(Short)),
    (Boxed(Double), RandomPrimitive(Double))
  ]

  /** The position of a primitive kind in both lists above. */
  function KindIndex(k: PrimKind): (i: nat)
    ensures i < |PrimitiveTypeDefaults| && PrimitiveTypeDefaults[i] == (Primitive(k), RandomPrimitive(k))
    ensures i < |WrapperDefaults| && WrapperDefaults[i] == (Boxed(k), RandomPrimitive(k))
    ensures forall j :: i < j < |PrimitiveTypeDefaults| ==> PrimitiveTypeDefaults[j].0 != Primitive(k)
    ensures forall j :: i < j < |WrapperDefaults| ==> WrapperDefaults[j].0 != Boxed(k)
  {
    match k
    case Long => 0
    case Int => 1
    case Float => 2
    case Boolean => 3
    case Char => 4
    case Byte => 5
    case Short => 6
    case Double => 7
  }

  /** The `Number` factory picks among the factories `find` returns for six
      primitive types at the moment it is built. */
  function NumberFactory(cb: ClassBindings): Factory {
    RandomFactoryFactory(NumberClass, [
      Find(cb, Primitive(Long)), Find(cb, Primitive(Int)), Find(cb, Primitive(Byte)),
      Find(cb, Primitive(Short)), Find(cb, Primitive(Double)), Find(cb, Primitive(Float))])
  }

  /** The bindings after `Number`; `Boolean.class` is bound a second time. */
  const ReferenceDefaults: seq<Step> := [
    (StringClass, RandomString),
    (UuidClass, RandomUuid),
    (LocalDateClass, RandomLocalDate),
    (Boxed(Boolean), RandomBoolean),
    (ListClass, ClassBased(ArrayListClass)),
    (MapClass, ClassBased(HashMapClass)),
    (SetClass, ClassBased(HashSetClass)),
    (BigDecimalClass, RandomBigDecimal),
    (OptionalClass, RandomOptional)
  ]

  /** The classes the later bindings bind. */
  predicate IsReferenceDefault(c: ClassId) {
    c in {StringClass, UuidClass, LocalDateClass, Boxed(Boolean),
          ListClass, MapClass, SetClass, BigDecimalClass, OptionalClass}
  }

  /** The classes the constructor binds: every primitive type, every
      wrapper class, `Number`, and the classes of the later bindings. */
  predicate IsDefaultClass(c: ClassId) {
    c.Primitive? || c.Boxed? || c == NumberClass || IsReferenceDefault(c)
  }

  /** The constructor body run on registry `cb`: the default bindings in
      the order the source makes them, the `Number` factory built from what
      `find` returns at that point. */
  function BindDefaults(cb: ClassBindings): Result<ClassBindings, Exception> {
    var primitives :- BindAll(cb, PrimitiveTypeDefaults);
    var wrappers :- BindAll(primitives, WrapperDefaults);
    var withNumber :- Bind(wrappers, NumberClass, NumberFactory(wrappers));
    BindAll(withNumber, ReferenceDefaults)
  }

  /** The constructor: the default bindings made on an empty registry. */
  function New(): Result<ClassBindings, Exception> {
    BindDefaults(EmptyBindings())
  }

  /** `LastBound` names the factory of step `i` when no later step binds
      the same class. */
  lemma {:induction false} LastBoundAt(steps: seq<Step>, clazz: ClassId, i: nat)
    requires i < |steps| && steps[i].0 == clazz
    requires forall j :: i < j < |steps| ==> steps[j].0 != clazz
    ensures LastBound(steps, clazz) == Some(steps[i].1)
    decreases |steps|
  {
    if i < |steps| - 1 {
      LastBoundAt(steps[..|steps| - 1], clazz, i);
    }
  }

  /** `LastBound` is null for a class no step binds. */
  lemma {:induction false} LastBoundNone(steps: seq<Step>, clazz: ClassId)
    requires forall j :: 0 <= j < |steps| ==> steps[j].0 != clazz
    ensures LastBound(steps, clazz) == None
    decreases |steps|
  {
    if |steps| > 0 {
      LastBoundNone(steps[..|steps| - 1], clazz);
    }
  }

  /** Among the primitive defaults each primitive type is bound once, to
      the random factory of its own kind, and nothing else is bound. */
  lemma PrimitiveTypeDefaultsLastBound(c: ClassId)
    ensures LastBound(PrimitiveTypeDefaults, c) == if c.Primitive? then Some(RandomPrimitive(c.kind)) else None
  {
    var p := PrimitiveTypeDefaults;
    if c.Primitive? {
      LastBoundAt(p, c, KindIndex(c.kind));
    } else {
      assert forall j :: 0 <= j < |p| ==> p[j].0.Primitive?;
      LastBoundNone(p, c);
    }
  }

  /** Among the wrapper defaults each wrapper class is bound once, to the
      random factory of the kind it wraps, and nothing else is bound. */
  lemma WrapperDefaultsLastBound(c: ClassId)
    ensures LastBound(WrapperDefaults, c) == if c.Boxed? then Some(RandomPrimitive(c.kind)) else None
  {
    var w := WrapperDefaults;
    if c.Boxed? {
      LastBoundAt(w, c, KindIndex(c.kind));
    } else {
      assert forall j :: 0 <= j < |w| ==> w[j].0.Boxed?;
      LastBoundNone(w, c);
    }
  }

  /** The later defaults bind exactly their nine classes, `Boolean.class` to
      the random boolean factory. */
  lemma ReferenceDefaultsLastBound(c: ClassId)
    ensures LastBound(ReferenceDefaults, c).Some? <==> IsReferenceDefault(c)
    ensures c == Boxed(Boolean) ==> LastBound(ReferenceDefaults, c) == Some(RandomBoolean)
  {
    var r := ReferenceDefaults;
    match c
    case StringClass => LastBoundAt(r, c, 0);
    case UuidClass => LastBoundAt(r, c, 1);
    case LocalDateClass => LastBoundAt(r, c, 2);
    case Boxed(Boolean) => LastBoundAt(r, c, 3);
    case ListClass => LastBoundAt(r, c, 4);
    case MapClass => LastBoundAt(r, c, 5);
    case SetClass => LastBoundAt(r, c, 6);
    case BigDecimalClass => LastBoundAt(r, c, 7);
    case OptionalClass => LastBoundAt(r, c, 8);
    case _ => LastBoundNone(r, c);
  }

  /** The `Number` factory depends on binding order: built after the
      primitive bindings none of its six factories is null, while built on a
      registry without them all six would be. */
  lemma NumberFactoryFindsPrimitives(cb: ClassBindings)
    requires forall k :: Find(cb, Primitive(k)) == Some(RandomPrimitive(k))
    ensures NumberFactory(cb)
         == RandomFactoryFactory(NumberClass, [
              Some(RandomPrimitive(Long)), Some(RandomPrimitive(Int)), Some(RandomPrimitive(Byte)),
              Some(RandomPrimitive(Short)), Some(RandomPrimitive(Double)), Some(RandomPrimitive(Float))])
    ensures NumberFactory(EmptyBindings()) == RandomFactoryFactory(NumberClass, [None, None, None, None, None, None])
  {
  }

  /** Every default binding keeps the default check, so each is valid for
      its class and none of them can make the constructor throw. */
  lemma DefaultsValid()
    ensures AllValid(PrimitiveTypeDefaults)
    ensures AllValid(WrapperDefaults)
    ensures AllValid(ReferenceDefaults)
  {
  }

  /** The primitive and wrapper bindings made on `cb`: each primitive type
      and each wrapper class is bound to the random factory of its kind,
      every other class keeps what it had. */
  lemma PrimitiveLayersFind(cb: ClassBindings, c: ClassId)
    ensures BindAll(cb, PrimitiveTypeDefaults).Success?
    ensures BindAll(BindAll(cb, PrimitiveTypeDefaults).value, WrapperDefaults).Success?
    ensures Find(BindAll(BindAll(cb, PrimitiveTypeDefaults).value, WrapperDefaults).value, c)
         == if c.Primitive? || c.Boxed? then Some(RandomPrimitive(c.kind)) else Find(cb, c)
  {
    DefaultsValid();
    BindAllSucceedsIffAllValid(cb, PrimitiveTypeDefaults);
    var primitives := BindAll(cb, PrimitiveTypeDefaults).value;
    BindAllSucceedsIffAllValid(primitives, WrapperDefaults);
    BindAllLastWriteWins(cb, PrimitiveTypeDefaults, c);
    PrimitiveTypeDefaultsLastBound(c);
    BindAllLastWriteWins(primitives, WrapperDefaults, c);
    WrapperDefaultsLastBound(c);
  }

  /** The later bindings made on `base`: their nine classes gain a binding,
      `Boolean.class` the random boolean factory, and `Number` keeps what it had. */
  lemma ReferenceLayerFind(base: ClassBindings, c: ClassId)
    ensures BindAll(base, ReferenceDefaults).Success?
    ensures Find(BindAll(base, ReferenceDefaults).value, c).Some? <==> Find(base, c).Some? || IsReferenceDefault(c)
    ensures c == Boxed(Boolean) ==> Find(BindAll(base, ReferenceDefaults).value, c) == Some(RandomBoolean)
    ensures c == NumberClass ==> Find(BindAll(base, ReferenceDefaults).value, c) == Find(base, c)
  {
    DefaultsValid();
    BindAllSucceedsIffAllValid(base, ReferenceDefaults);
    BindAllLastWriteWins(base, ReferenceDefaults, c);
    ReferenceDefaultsLastBound(c);
  }

  /** What the constructor body leaves `find` returning for one class `c`. */
  lemma BindDefaultsFind(cb: ClassBindings, c: ClassId)
    ensures BindDefaults(cb).Success?
    ensures Find(BindDefaults(cb).value, c).Some? <==> Find(cb, c).Some? || IsDefaultClass(c)
    ensures c == Boxed(Boolean) ==> Find(BindDefaults(cb).value, c) == Some(RandomBoolean)
    ensures c == NumberClass ==>
              (Find(BindDefaults(cb).value, c)
               == Some(RandomFactoryFactory(NumberClass, [
                    Some(RandomPrimitive(Long)), Some(RandomPrimitive(Int)), Some(RandomPrimitive(Byte)),
                    Some(RandomPrimitive(Short)), Some(RandomPrimitive(Double)), Some(RandomPrimitive(Float))])))
  {
    PrimitiveLayersFind(cb, c);
    var wrappers := BindAll(BindAll(cb, PrimitiveTypeDefaults).value, WrapperDefaults).value;
    forall k ensures Find(wrappers, Primitive(k)) == Some(RandomPrimitive(k)) {
      PrimitiveLayersFind(cb, Primitive(k));
    }
    NumberFactoryFindsPrimitives(wrappers);
    var withNumber := Bind(wrappers, NumberClass, NumberFactory(wrappers)).value;
    ReferenceLayerFind(withNumber, c);
  }

  /** The constructor body binds the default classes on top of `cb`;
      `Boolean.class` ends with the factory of its second, later binding and
      the `Number` factory holds a non-null factory for each of its six
      primitives. */
  lemma BindDefaultsBindsDefaults(cb: ClassBindings)
    ensures BindDefaults(cb).Success?
    ensures forall c :: Find(BindDefaults(cb).value, c).Some? <==> Find(cb, c).Some? || IsDefaultClass(c)
    ensures Find(BindDefaults(cb).value, Boxed(Boolean)) == Some(RandomBoolean)
    ensures Find(BindDefaults(cb).value, NumberClass)
         == Some(RandomFactoryFactory(NumberClass, [
              Some(RandomPrimitive(Long)), Some(RandomPrimitive(Int)), Some(RandomPrimitive(Byte)),
              Some(RandomPrimitive(Short)), Some(RandomPrimitive(Double)), Some(RandomPrimitive(Float))]))
  {
    forall c
      ensures BindDefaults(cb).Success?
      ensures Find(BindDefaults(cb).value, c).Some? <==> Find(cb, c).Some? || IsDefaultClass(c)
    {
      BindDefaultsFind(cb, c);
    }
    BindDefaultsFind(cb, Boxed(Boolean));
    BindDefaultsFind(cb, NumberClass);
  }

  /** After the constructor exactly the default classes have a binding, so
      `find` is non-null for each of them and null for every other class. */
  lemma NewBindsDefaults()
    ensures New().Success?
    ensures forall c :: Find(New().value, c).Some? <==> IsDefaultClass(c)
    ensures Find(New().value, Boxed(Boolean)) == Some(RandomBoolean)
    ensures Find(New().value, NumberClass)
         == Some(RandomFactoryFactory(NumberClass, [
              Some(RandomPrimitive(Long)), Some(RandomPrimitive(Int)), Some(RandomPrimitive(Byte)),
              Some(RandomPrimitive(Short)), Some(RandomPrimitive(Double)), Some(RandomPrimitive(Float))]))
  {
    BindDefaultsBindsDefaults(EmptyBindings());
  }
}

=== FILE: factory.dfy ===
/** `LoremIpsumObjectFactory`: the abstract factory every binding holds. Its
    validity check accepts every class unless a factory overrides it; its
    creator returns a nullable object and records, rather than throws, the
    failures it meets; its one-argument entry point starts a new creation
    chain with no known instances and no exceptions. */
module LoremIpsumObjectFactory {
  import opened Wrappers
  import opened Lang
  import opened CreationChain
  import MethodBasedFactory

  /** The factories the registry can hold. Only `MethodBased` and `Custom`
      override `isValidForType`; the random leaf factories and the
      class-based factory keep the default. `Custom` stands for a user
      subclass whose check accepts the classes in `accepted` and answers
      `rejection` for every other class. */
  datatype Factory =
    | RandomPrimitive(kind: PrimKind)
    | RandomFactoryFactory(target: ClassId, factories: seq<Option<Factory>>)
    | RandomString
    | RandomUuid
    | RandomLocalDate
    | RandomBoolean
    | RandomBigDecimal
    | RandomOptional
    | ClassBased(implementation: ClassId)
    | MethodBased(invoked: MethodDesc)
    | Custom(name: string, accepted: set<ClassId>, rejection: Verdict)

  /** True of the factories that keep the default `isValidForType`. */
  predicate KeepsDefaultCheck(f: Factory) {
    !f.MethodBased? && !f.Custom?
  }

  /** `isValidForType`, dispatched on the factory's class. */
  function IsValidForType(f: Factory, clazz: ClassId): (v: Verdict)
    ensures KeepsDefaultCheck(f) ==> v == Valid
    ensures f.MethodBased? ==> (v == Valid <==> f.invoked.isStatic && f.invoked.returnType == clazz)
    ensures f.MethodBased? ==> v != Invalid
    ensures f.Custom? && clazz in f.accepted ==> v == Valid
    ensures f.Custom? && clazz !in f.accepted ==> v == f.rejection
  {
    match f
    case MethodBased(m) => MethodBasedFactory.IsValidForType(m, clazz)
    case Custom(_, accepted, rejection) => if clazz in accepted then Valid else rejection
    case _ => Valid
  }

  /** The collaborators a creation chain calls but this model does not open:
      `invoke` is a time-limited reflective method call, whose deadline is
      read from the context, and `produce` is the creator of every factory
      other than `MethodBased`. */
  datatype Collaborators<!Ctx> = Collaborators(
    invoke: (MethodDesc, seq<Option<Value>>, Ctx) -> MethodBasedFactory.Invocation,
    produce: (Factory, Option<seq<TypeDesc>>, Ctx, Chain) -> Produced)

  /** A method factory synthesises each argument with a fresh class-based
      factory for the parameter's class. */
  function ParameterSynthesis<Ctx>(env: Collaborators<Ctx>): (ClassId, Option<seq<TypeDesc>>, Ctx, Chain) -> Produced {
    (c: ClassId, gm: Option<seq<TypeDesc>>, x: Ctx, ch: Chain) => env.produce(ClassBased(c), gm, x, ch)
  }

  /** The full creator: creates an object (or null) within an existing chain.
      Expected failures end up in the chain's exceptions, which only grow. */
  function CreateInChain<Ctx>(f: Factory, genericMetaData: Option<seq<TypeDesc>>, chain: Chain, ctx: Ctx,
                              env: Collaborators<Ctx>): (r: Created)
    ensures IsPrefix(chain.exceptions, r.chain.exceptions)
    ensures f.MethodBased? ==>
              r == MethodBasedFactory.CreateLoremIpsumObject(f.invoked, genericMetaData, chain, ctx, ParameterSynthesis(env), env.invoke)
  {
    match f
    case MethodBased(m) =>
      MethodBasedFactory.CreateLoremIpsumObject(m, genericMetaData, chain, ctx, ParameterSynthesis(env), env.invoke)
    case _ =>
      var p := env.produce(f, genericMetaData, ctx, chain);
      Created(p.value, Absorb(chain, p))
  }

  /** The one-argument entry point: runs the full creator with null generic
      metadata, an empty known-instances map and an empty exception list.
      Java returns only the object; the model also returns the chain the run
      ended in. */
  function CreateLoremIpsumObject<Ctx>(f: Factory, ctx: Ctx, env: Collaborators<Ctx>): (r: Created)
    ensures f.MethodBased? ==>
              r == MethodBasedFactory.CreateLoremIpsumObject(f.invoked, None, Chain(map[], []), ctx, ParameterSynthesis(env), env.invoke)
    ensures f.MethodBased? && |f.invoked.paramTypes| == 0 && env.invoke(f.invoked, [], ctx).Returned? ==>
              r.value == env.invoke(f.invoked, [], ctx).value && r.chain == Chain(map[], [])
    ensures f.MethodBased? && |f.invoked.paramTypes| == 0 && env.invoke(f.invoked, [], ctx).Failed? ==>
              && r.value == None
              && r.chain.knownInstances == map[]
              && r.chain.exceptions
                 == [IllegalArgument(FailedToInvoke(f.invoked.name, f.invoked.returnType), Some(env.invoke(f.invoked, [], ctx).cause))]
    ensures !f.MethodBased? ==>
              var p := env.produce(f, None, ctx, Chain(map[], []));
              r.value == p.value && r.chain == Chain(p.knownInstances, p.added)
  {
    CreateInChain(f, None, NewChain(), ctx, env)
  }

  /** From the entry point, a method factory is invoked on arguments whose
      first was synthesised with null generic metadata, an empty
      known-instances map and an empty exception list, and the entry point
      returns what that invocation returned, or null when it failed. */
  lemma EntryStartsFromEmptyChain<Ctx>(m: MethodDesc, ctx: Ctx, env: Collaborators<Ctx>)
    requires |m.paramTypes| > 0
    ensures var args := MethodBasedFactory.SynthesizeArguments(m.paramTypes, None, ctx, Chain(map[], []), ParameterSynthesis(env)).0;
            && args[0] == env.produce(ClassBased(m.paramTypes[0]), None, ctx, Chain(map[], [])).value
            && CreateLoremIpsumObject(MethodBased(m), ctx, env).value
               == (if env.invoke(m, args, ctx).Returned? then env.invoke(m, args, ctx).value else None)
  {
    MethodBasedFactory.ArgumentIsSynthesizedForItsParameter(m.paramTypes, 0, None, ctx, NewChain(), ParameterSynthesis(env));
    assert m.paramTypes[..0] == [];
  }
}

=== FILE: lang.dfy ===
/** Stand-ins for the parts of the Java runtime the factories talk to:
    classes, reflected methods, objects and exceptions. Reflection itself is
    not modelled; a method is described by the three facts the factories read. */
module Lang {
  import opened Wrappers

  /** The eight Java primitive types. */
  datatype PrimKind = Long | Int | Float | Boolean | Char | Byte | Short | Double

  /** A `java.lang.Class` identity. Class identity is exact: two classes are
      equal only when they are the same class, never through sub- or
      super-typing. A class with a constructor of its own is always written
      with that constructor: `UserClass` never names one of the classes
      listed here (`UserClass("java.lang.String")` is not a way to write
      `String.class`), so each class has exactly one encoding. */
  datatype ClassId =
    | Primitive(kind: PrimKind)   // `Long.TYPE`, `Integer.TYPE`, ...
    | Boxed(kind: PrimKind)       // `Long.class`, `Integer.class`, ...
    | NumberClass
    | StringClass
    | UuidClass
    | LocalDateClass
    | ListClass
    | MapClass
    | SetClass
    | BigDecimalClass
    | OptionalClass
    | ArrayListClass
    | HashMapClass
    | HashSetClass
    | UserClass(name: string)     // any class not listed above, named by its binary name

  /** Java's proper subtype relation, restricted to the library classes named
      above. Each numeric wrapper class and `BigDecimal` extends `Number`.
      `ArrayList`, `HashMap` and `HashSet` implement `List`, `Map` and `Set`.
      No class is its own proper subtype. The subtypes of user classes are
      not modelled. */
  predicate IsProperSubtype(sub: ClassId, sup: ClassId) {
    match sup
    case NumberClass => sub == BigDecimalClass || (sub.Boxed? && sub.kind !in {Boolean, Char})
    case ListClass => sub == ArrayListClass
    case MapClass => sub == HashMapClass
    case SetClass => sub == HashSetClass
    case _ => false
  }

  /** A `java.lang.reflect.Type`: a raw class and its generic arguments. */
  datatype TypeDesc = TypeDesc(raw: ClassId, args: seq<TypeDesc>)

  /** What a factory reads from a `java.lang.reflect.Method`: its name, whether
      its modifiers include `static`, its return type and its parameter types. */
  datatype MethodDesc = MethodDesc(name: string, isStatic: bool, returnType: ClassId, paramTypes: seq<ClassId>)

  /** An object produced by some factory; `Option<Value>` is a nullable reference. */
  datatype Value = Instance(cls: ClassId, id: nat)

  /** The fixed messages the core raises its `IllegalArgumentException`s with. */
  datatype Reason =
    | FactoryNotValid                                     // bind, the check answered false
    | FactoryNotValidForClass(clazz: ClassId)             // bind, wrapping whatever the check raised
    | MethodMustBeStaticAndReturnClass                    // method factory rejecting a binding
    | FailedToInvoke(methodName: string, returnType: ClassId) // method factory failing to invoke
    | Message(text: string)                               // raised by code outside the model

  /** A Java exception. `IllegalArgument` covers `IllegalArgumentException`
      and every subclass of it (`NumberFormatException`, ...), since a
      `catch (IllegalArgumentException e)` catches them all; an exception of
      that family raised outside the model is `IllegalArgument(Message(..), _)`.
      `Timeout` is the exception a time-limited call raises when its deadline
      passes. `Raised` is only for exceptions outside both of these families. */
  datatype Exception =
    | IllegalArgument(reason: Reason, cause: Option<Exception>)
    | Timeout
    | Raised(kind: string)

  /** The outcome of calling a factory's `isValidForType`: it returns true,
      returns false, or throws. */
  datatype Verdict = Valid | Invalid | Throws(thrown: Exception)

  /** A `ClassUsageInfo` (not part of this model) kept in the known-instances
      map; only its instance is represented. */
  datatype ClassUsageInfo = ClassUsageInfo(instance: Value)
}

=== FILE: method_factory.dfy ===
/** `MethodBasedFactory`: a factory bound to a static method that returns the
    requested class. It synthesises one argument per declared parameter,
    invokes the method under a time limit, and records a failure instead of
    throwing it. */
module MethodBasedFactory {
  import opened Wrappers
  import opened Lang
  import opened CreationChain

  /** How a time-limited `Method.invoke` ended: it returned a (nullable) object,
      or it failed with the given cause (the method threw, reflection refused
      the call, or the deadline passed and `Timeout` was raised). */
  datatype Invocation = Returned(value: Option<Value>) | Failed(cause: Exception)

  /** The exception this factory throws when it is not valid for a class. */
  const NotStaticOrWrongReturn: Exception := IllegalArgument(MethodMustBeStaticAndReturnClass, None)

  /** `isValidForType`: valid exactly when the method is static and returns
      exactly `clazz`; in every other case it throws instead of answering false. */
  function IsValidForType(m: MethodDesc, clazz: ClassId): (v: Verdict)
    ensures v == Valid <==> m.isStatic && m.returnType == clazz
    ensures v != Invalid
    ensures v != Valid ==> v == Throws(NotStaticOrWrongReturn)
  {
    if m.isStatic && m.returnType == clazz then Valid else Throws(NotStaticOrWrongReturn)
  }

  /** Synthesises the arguments for `paramTypes` in order, each by a fresh
      class-based factory for that parameter's class, given the outer call's
      generic metadata and context and the chain as the previous parameters
      left it. Returns the arguments and the chain afterwards. */
  function SynthesizeArguments<Ctx>(
    paramTypes: seq<ClassId>, genericMetaData: Option<seq<TypeDesc>>, ctx: Ctx, chain: Chain,
    synthesize: (ClassId, Option<seq<TypeDesc>>, Ctx, Chain) -> Produced): (r: (seq<Option<Value>>, Chain))
    ensures |r.0| == |paramTypes|
    ensures IsPrefix(chain.exceptions, r.1.exceptions)
    decreases |paramTypes|
  {
    if |paramTypes| == 0 then ([], chain)
    else
      var p := synthesize(paramTypes[0], genericMetaData, ctx, chain);
      var rest := SynthesizeArguments(paramTypes[1..], genericMetaData, ctx, Absorb(chain, p), synthesize);
      PrefixTransitive(chain.exceptions, Absorb(chain, p).exceptions, rest.1.exceptions);
      ([p.value] + rest.0, rest.1)
  }

  /** The chain in which parameter `i` is synthesised: the one left by the
      parameters before it. */
  function ChainBefore<Ctx>(
    paramTypes: seq<ClassId>, i: nat, genericMetaData: Option<seq<TypeDesc>>, ctx: Ctx, chain: Chain,
    synthesize: (ClassId, Option<seq<TypeDesc>>, Ctx, Chain) -> Produced): Chain
    requires i <= |paramTypes|
  {
    SynthesizeArguments(paramTypes[..i], genericMetaData, ctx, chain, synthesize).1
  }

  /** Every parameter sees what the earlier ones recorded: parameter 0 is
      synthesised in the caller's chain, the chain after parameter `i` is the
      chain before it with that parameter's known instances and exceptions
      absorbed, and the run ends in the chain after the last parameter. */
  lemma {:induction false} ChainAfterParameter<Ctx>(
    paramTypes: seq<ClassId>, i: nat, genericMetaData: Option<seq<TypeDesc>>, ctx: Ctx, chain: Chain,
    synthesize: (ClassId, Option<seq<TypeDesc>>, Ctx, Chain) -> Produced)
    requires i < |paramTypes|
    ensures ChainBefore(paramTypes, 0, genericMetaData, ctx, chain, synthesize) == chain
    ensures var before := ChainBefore(paramTypes, i, genericMetaData, ctx, chain, synthesize);
            ChainBefore(paramTypes, i + 1, genericMetaData, ctx, chain, synthesize)
            == Absorb(before, synthesize(paramTypes[i], genericMetaData, ctx, before))
    ensures SynthesizeArguments(paramTypes, genericMetaData, ctx, chain, synthesize).1
         == ChainBefore(paramTypes, |paramTypes|, genericMetaData, ctx, chain, synthesize)
    decreases i
  {
    assert paramTypes[..0] == [];
    assert paramTypes[..|paramTypes|] == paramTypes;
    var p := synthesize(paramTypes[0], genericMetaData, ctx, chain);
    assert paramTypes[..i + 1][0] == paramTypes[0];
    assert paramTypes[..i + 1][1..] == paramTypes[1..][..i];
    var tail := paramTypes[1..];
    assert ChainBefore(paramTypes, i + 1, genericMetaData, ctx, chain, synthesize)
        == ChainBefore(tail, i, genericMetaData, ctx, Absorb(chain, p), synthesize);
    if i > 0 {
      ChainAfterParameter(tail, i - 1, genericMetaData, ctx, Absorb(chain, p), synthesize);
      assert paramTypes[..i][0] == paramTypes[0];
      assert paramTypes[..i][1..] == tail[..i - 1];
      assert ChainBefore(paramTypes, i, genericMetaData, ctx, chain, synthesize)
          == ChainBefore(tail, i - 1, genericMetaData, ctx, Absorb(chain, p), synthesize);
      assert tail[i - 1] == paramTypes[i];
    } else {
      assert paramTypes[1..][..0] == [];
    }
  }

  /** Argument `i` is what synthesis of parameter type `i` produced, with the
      outer generic metadata and context, in the chain left by parameters
      `0 .. i-1`. */
  lemma {:induction false} ArgumentIsSynthesizedForItsParameter<Ctx>(
    paramTypes: seq<ClassId>, i: nat, genericMetaData: Option<seq<TypeDesc>>, ctx: Ctx, chain: Chain,
    synthesize: (ClassId, Option<seq<TypeDesc>>, Ctx, Chain) -> Produced)
    requires i < |paramTypes|
    ensures SynthesizeArguments(paramTypes, genericMetaData, ctx, chain, synthesize).0[i]
         == synthesize(paramTypes[i], genericMetaData, ctx,
                       ChainBefore(paramTypes, i, genericMetaData, ctx, chain, synthesize)).value
    decreases i
  {
    var p := synthesize(paramTypes[0], genericMetaData, ctx, chain);
    if i > 0 {
      ArgumentIsSynthesizedForItsParameter(paramTypes[1..], i - 1, genericMetaData, ctx, Absorb(chain, p), synthesize);
      assert paramTypes[..i][0] == paramTypes[0];
      assert paramTypes[..i][1..] == paramTypes[1..][..i - 1];
    } else {
      assert paramTypes[..0] == [];
    }
  }

  /** `_createLoremIpsumObject`: synthesise the arguments, invoke the method,
      and on failure record exactly one `IllegalArgumentException` (with the
      failure as its cause) and return null rather than throw. */
  function CreateLoremIpsumObject<Ctx>(
    m: MethodDesc, genericMetaData: Option<seq<TypeDesc>>, chain: Chain, ctx: Ctx,
    synthesize: (ClassId, Option<seq<TypeDesc>>, Ctx, Chain) -> Produced,
    invoke: (MethodDesc, seq<Option<Value>>, Ctx) -> Invocation): (r: Created)
    ensures IsPrefix(chain.exceptions, r.chain.exceptions)
    ensures var (args, after) := SynthesizeArguments(m.paramTypes, genericMetaData, ctx, chain, synthesize);
            && |args| == |m.paramTypes|
            && r.chain.knownInstances == after.knownInstances
            && match invoke(m, args, ctx)
               case Returned(v) =>
                 r.value == v && r.chain.exceptions == after.exceptions
               case Failed(cause) =>
                 && r.value == None
                 && |r.chain.exceptions| == |after.exceptions| + 1
                 && IsPrefix(after.exceptions, r.chain.exceptions)
                 && r.chain.exceptions[|after.exceptions|]
                    == IllegalArgument(FailedToInvoke(m.name, m.returnType), Some(cause))
  {
    var (args, after) := SynthesizeArguments(m.paramTypes, genericMetaData, ctx, chain, synthesize);
    match invoke(m, args, ctx)
    case Returned(v) => Created(v, after)
    case Failed(cause) =>
      var recorded := Record(after, IllegalArgument(FailedToInvoke(m.name, m.returnType), Some(cause)));
      PrefixTransitive(chain.exceptions, after.exceptions, recorded.exceptions);
      Created(None, recorded)
  }
}

=== FILE: wrappers.dfy ===
/** Failure-compatible wrappers: `Option` stands in for a Java reference that
    may be null, `Result` for a call that either returns or throws. */
module Wrappers {

  datatype Option<+T> = None | Some(value: T)

  datatype Result<+R, +E> = Success(value: R) | Failure(error: E) {

    predicate IsFailure() {
      Failure?
    }

    function PropagateFailure<U>(): Result<U, E>
      requires Failure?
    {
      Failure(error)
    }

    function Extract(): R
      requires Success?
    {
      value
    }
  }
}
